=== FILE: README.md ===
# clink console interception, modelled in Dafny

This project models the console-interception core of clink's injected DLL,
`clink/dll/dll.c`. The DLL is loaded into `cmd.exe`. It replaces the
host's console read and write routines so that line input goes through
readline. The host still sees the framing it expects.

The model is a functional state machine. `HookState.State` holds:

- the write-cache index;
- the two cache slots;
- the auto-answer visit counter;
- the bound shell adapter;
- the installed exception filter;
- `rl_readline_name`.

Each hook is a pure function from a state to a `Step`. A `Step` holds the
next state, the events the call caused outside (console writes,
delegated reads, collaborator calls, adapter lifecycle calls) and the
value the hook returns. `wchar_t` is the 16-bit `WideString.WChar`. A C
buffer is a sequence of exactly its size, and the string it holds is
everything before its first NUL.

Modules:

- `WideString`: `wcslen`, `wcsncpy` and `wcsncat` on bounded buffers.
- `Crlf`: `append_crlf`, as written and corrected.
- `HookState`: state, slots, events and the state invariant `Valid`.
- `WriteCache`: `invalidate_cached_write`, `dispatch_cached_write` and
  `hooked_write_console`, plus runs of writes.
- `ReadHooks`: `hooked_read_console_input`, `handle_single_byte_read` and
  `hooked_read_console`. The collaborators `check_auto_answer`,
  `call_readline_w`, `emulate_doskey` and the `ctrld_exits` setting are
  fields of a `Host` record of total functions.
- `Lifecycle`: `set_rl_readline_name`'s base name, the shell table,
  `on_dll_attach` and `on_dll_detach`.
- `Sessions`: properties of hook calls in sequence.

Every hook preserves `HookState.Valid`:

- the index is 0 or 1;
- slots hold at most 0xffff characters;
- the slot about to be filled has nothing pending, so at most one write
  awaits its flush;
- the visit counter is 0 or 1 between calls.

## Behaviour worth noting

These facts about clink/dll/dll.c are easy to miss when reading it:

- Invalidating a slot sets its size to 0 and writes a NUL at index 0. The
  buffer pointer is kept, not nulled.
- Dispatching an allocated but invalidated slot still calls `WriteConsoleW`,
  with length 0 (`HookState.Flush`).
- `visit_count` is reset only by the second auto-answer visit. A line read
  or a write that empties the prompt in between leaves it at 1
  (`Sessions.StaleVisitAnswersNewline`).
- `g_shell` stays bound when `validate` or `initialise` fails. Unload then
  runs the full teardown after a failed attach
  (`Lifecycle.TeardownFollowsValidate`).
- `on_dll_attach` uses whatever `get_inject_args` returns; there are no
  default options. The options are an input of `Attach`.

## Model

| member | source | states |
|---|---|---|
| `WideString.ToWChar` | clink/dll/dll.c:184 | a reply in 0..0xffff is stored unchanged; any other is stored modulo 2^16, as assigning an `int` to `wchar_t` does |
| `WideString.WcsLen` | clink/dll/dll.c:256 | the length reported is the position of the first NUL, with no NUL before it |
| `WideString.WcsNCpy` | clink/dll/dll.c:246 | copying "exit" into a buffer of more than 4 characters leaves exactly "exit"; a shorter buffer gets a cut copy with no terminator |
| `WideString.WcsNCat` | clink/dll/dll.c:203 | appending stays in bounds exactly when string, appended part and NUL fit; the new string is the old one followed by the appended part |
| `Crlf.CatCrlf` | clink/dll/dll.c:203 | `wcsncat` of CR LF with bound `n` keeps the buffer's size, and stores past its end exactly when the old string plus `min(n, 2)` characters fill the buffer |
| `Crlf.CatCrlfInBounds` | clink/dll/dll.c:203 | when no store lands past the end, the result is the general bounded `wcsncat` of CR LF |
| `Crlf.AppendCrlfAsWritten` | clink/dll/dll.c:195-205 | with the bound `max_size - wcslen`, the append stores into the cell just past the buffer exactly when the line is at least `max_size - 2` long; the buffer keeps its size and ends in NUL |
| `Crlf.AppendCrlfOverrunWitness` | clink/dll/dll.c:202-203 | a 3-character buffer holding "a" is such an input |
| `Crlf.AppendCrlf` | clink/dll/dll.c:195-205 | the result keeps the buffer size; its string is the old string followed by CR LF, cut to `max_size - 1` characters; the last slot is NUL |
| `Crlf.CatCrlfLastSlot` | clink/dll/dll.c:202-204 | the bounds `max_size - wcslen` and `max_size - wcslen - 1` give the same buffer once the last slot is forced to NUL |
| `Crlf.AppendCrlfAsWrittenLine` | clink/dll/dll.c:195-205 | after the as-written append the buffer holds a terminated string: the old line followed by CR LF, cut to `max_size - 1` characters |
| `Crlf.AppendCrlfAgrees` | clink/dll/dll.c:202-204 | inside the buffer, the as-written append leaves the same contents as the corrected one, whether or not it also stored past the end |
| `Crlf.AppendCrlfTerminates` | clink/dll/dll.c:195-205 | a line with room ends in CR LF; a longer line fills the buffer but one slot with a prefix of line plus CR LF |
| `HookState.Initial` | clink/dll/dll.c:47-51 | the load-time state satisfies the invariant: both buffers NULL, write index 0, no shell bound, so the first read sees a NULL prompt; the visit counter starts at 0 (line 173) |
| `HookState.PromptText` | clink/dll/dll.c:166-169 | the prompt handed on is NULL exactly for a never-written slot; otherwise it is the cached text up to its first NUL: a NUL-free prefix of it that is either all of it or followed by a NUL, and all of it when the text has no NUL |
| `HookState.Flush` | clink/dll/dll.c:127-132 | a flush issues one event exactly when the slot has a buffer, that event is a console write, and it puts that slot's text on the console, so an allocated empty slot gives a zero-length write |
| `WriteCache.Invalidate` | clink/dll/dll.c:95-112 | an out-of-range index changes nothing; otherwise only that slot changes: it becomes empty and keeps whether it is allocated |
| `WriteCache.Dispatch` | clink/dll/dll.c:115-135 | an in-range allocated slot's text goes to the console and the slot is then invalidated; an out-of-range index writes nothing and changes nothing |
| `WriteCache.DispatchOnce` | clink/dll/dll.c:115-135 | a second dispatch of the same slot puts nothing on the console, so each cached text is emitted at most once |
| `WriteCache.Fit` | clink/dll/dll.c:295-300 | a slot keeps the first `min(n, 0xffff)` characters of a write, and all of a write that fits |
| `WriteCache.SlotOverrunAsWritten` | clink/dll/dll.c:284-301 | with `g_write_cache_size + 1` bytes allocated, the copy overruns exactly for writes of 0x8000 characters or more |
| `WriteCache.CopyFitsSlot` | clink/dll/dll.c:286-301 | a slot sized in bytes for 0xffff characters and a NUL holds every copy |
| `WriteCache.WriteConsole` | clink/dll/dll.c:261-312 | the index toggles; the written slot becomes the prompt slot holding the cut write; the previous prompt slot is flushed and left empty; the emptied slot keeps its buffer exactly when it had one; the call returns TRUE with the full requested length |
| `WriteCache.RunWrites` | clink/dll/dll.c:279-304 | any run of writes keeps the state invariant |
| `WriteCache.WritesDeferOne` | clink/dll/dll.c:279-304 | a run of writes flushes what was pending, then every write but the last, each once and in order; the last stays cached as the prompt |
| `ReadHooks.EditedLine` | clink/dll/dll.c:243-247 | on EOF with `ctrld_exits` the buffer holds "exit"; otherwise it is what the editor left |
| `ReadHooks.ReadConsoleInput` | clink/dll/dll.c:138-151 | the pending prompt is flushed and emptied, keeping its buffer, before the real input read, whose reply is returned; the counter and the other slot are untouched |
| `ReadHooks.SingleByteRead` | clink/dll/dll.c:154-192 | for a recognised prompt, visit 1 returns the reply with count 1 and keeps the prompt; visit 2 returns '\n' with count 1, empties the prompt and resets the counter; otherwise the prompt is flushed and the real read answers, with the counter unchanged; an emptied prompt keeps its buffer, so the next prompt is "" and not NULL |
| `ReadHooks.ReadLine` | clink/dll/dll.c:236-258 | the prompt slot goes to the editor inside the crash guard, doskey gets the edited or "exit" line, the reply is TRUE with the CR LF-terminated line and its `wcslen`, `append_crlf` stores past the buffer exactly when the expanded line is at least `size - 2` long, the prompt slot is emptied but keeps its buffer, and nothing else changes |
| `ReadHooks.ReadConsole` | clink/dll/dll.c:208-258 | a request for one character goes only to the single-character path; any other request is a full-line read |
| `ReadHooks.CrashGuardScoped` | clink/dll/dll.c:240-254 | the guard is installed before the editor runs, and the previous filter is restored at the end and is the filter in place afterwards |
| `Lifecycle.BaseName` | clink/dll/dll.c:324-325 | the name has no backslash, is a suffix of the path, and is either the whole path or preceded by a backslash |
| `Lifecycle.ExeName` | clink/dll/dll.c:321-328 | the stored name is a prefix of the base name, below 64 characters, and is all of it when it fits |
| `Lifecycle.HostName` | clink/dll/dll.c:315-331 | when the module path is known, the name is the base name cut to at most 63 characters, with no backslash; when it is not, the name stays as it was |
| `Lifecycle.FindShell` | clink/dll/dll.c:385-402 | the first table entry whose name matches case-insensitively is chosen; nothing is chosen exactly when no entry matches |
| `Lifecycle.HostMatch` | clink/dll/dll.c:390-401 | any case spelling of "cmd.exe", and nothing else, selects the cmd adapter |
| `Lifecycle.SelectShell` | clink/dll/dll.c:394-414 | a table match wins; with no match an already bound shell is kept, and with nothing bound the generic adapter is bound iff host checks are off |
| `Lifecycle.Preamble` | clink/dll/dll.c:374-382 | the profile override is published exactly when a profile path was given, and `prepare_env_for_inputrc` runs last; no adapter call happens before the shell search |
| `Lifecycle.Negotiate` | clink/dll/dll.c:416-429 | validate is called first and initialise only after a passing validate; success iff both pass; banner iff success and not quiet; failure message iff initialise failed; only adapter calls, the banner and the failure message are emitted |
| `Lifecycle.Attach` | clink/dll/dll.c:369-430 | the host name and binding are set and nothing else changes; the preamble's events come first, before any adapter call or failure message; with no adapter bound the result is FALSE and no adapter method is called; otherwise as `Negotiate` |
| `Lifecycle.AttachSelectsShell` | clink/dll/dll.c:384-414 | from a fresh load: "cmd.exe" in any case binds cmd; an unknown host with host checks on fails with no adapter call; with them off the generic adapter is validated, then initialised if that passed |
| `Lifecycle.Detach` | clink/dll/dll.c:433-445 | always TRUE; with a bound shell, teardown is shutdown, save history, shut down Lua, shut down settings, in that order; otherwise nothing |
| `Lifecycle.TeardownFollowsValidate` | clink/dll/dll.c:398-445 | from a fresh load, unload tears down iff attach called some adapter's validate, whether or not attach succeeded |
| `Sessions.PromptReachesEditor` | clink/dll/dll.c:236-243 | a write followed by a line read hands exactly the written text to the editor as its prompt |
| `Sessions.LineReadSilent` | clink/dll/dll.c:236-258 | a line read puts nothing on the console, so a prompt it consumes is drawn only by the editor |
| `Sessions.ConsumedPromptNotRedrawn` | clink/dll/dll.c:249 | after a line read, the next write has nothing of the consumed prompt to flush |
| `Sessions.ReadLineEndsWithCrlf` | clink/dll/dll.c:251-256 | a line read returns the expanded line plus CR LF when it fits, else exactly `size - 1` characters of it, and stores past the buffer exactly in that second case |
| `Sessions.AutoAnswerCadence` | clink/dll/dll.c:169-186 | after a recognised prompt is written, two one-character reads return the reply, then '\n', each with count 1 and no console output; the prompt is then empty and the counter 0 |
| `Sessions.StaleVisitAnswersNewline` | clink/dll/dll.c:173-182 | a counter left at 1 survives a line read and a write, so the next recognised prompt is answered '\n' at once |

## Left out

- `exception_filter` (clink/dll/dll.c:56-92) writes a minidump: file creation, process handles and stderr text are Win32 I/O. Only which filter is installed is modelled (`CrashGuard` against the host's own).
- `get_inject_args` (clink/dll/dll.c:335-341) is shared-memory I/O. Its record is the `InjectArgs` input of `Attach`. The source checks for no failure, so no defaulting is modelled.
- `DllMain` (clink/dll/dll.c:448-457) only routes on the reason code; attach and detach are modelled directly.
- Win32 calls are events or inputs. `WriteConsoleW` is `ConsoleWrite`. `ReadConsoleW` and `ReadConsoleInputA` are the `ConsoleRead`/`ConsoleReadInput` events, and their replies are parameters. `SetUnhandledExceptionFilter` is `SetFilter`. A store `append_crlf` makes past the caller's buffer is the `WritePastEnd` event; what it overwrites there is not modelled. `GetModuleFileName` is an optional path; `None` means it failed and the name keeps its old value.
- Console handles are not modelled. The write path writes to the handle it was given; the read paths flush to standard output. Both count as the one console.
- WriteCache.WriteConsole: the copy past the slot's allocation for writes of 0x8000 characters or more is stated by `WriteCache.SlotOverrunAsWritten`, not as an event of the step, and what the excess bytes overwrite is not modelled; the slot holds the cut text either way.
- `VirtualAlloc` is assumed to succeed. A NULL return would be dereferenced by the copy at clink/dll/dll.c:300.
- The collaborators are not part of this model: `check_auto_answer`, `call_readline_w`, `emulate_doskey`, `get_clink_setting_int`, `prepare_env_for_inputrc`, `set_config_dir_override`, `get_config_dir`, `save_history`, `shutdown_lua`, `shutdown_clink_settings` and the shell vtables. They appear as `Host`/`AttachEnv` functions or as events, and `emulate_doskey` may rewrite the buffer arbitrarily.
- Lifecycle.ExeName: `str_cpy` is not part of this model. It is taken to keep the first `min(len, 63)` characters of its source and a NUL.
- `LOG_INFO` and the text printed by `success` and `failed` are left out. Only the `Banner` and `LoadFailed` events remain.
- ReadHooks.ReadConsole and ReadHooks.ReadLine require `LineReadable`. The editor and `emulate_doskey` must leave a terminated string within the buffer. A substituted "exit" needs a buffer of at least 5 characters, because `wcsncpy` writes no terminator otherwise. No buffer of size 0 satisfies it, so the `buffer[max_size - 1]` underflow at clink/dll/dll.c:204 is excluded.
- Host names use Dafny `char` with ASCII case folding for `stricmp`. Locale-dependent folding is not modelled.
- clink/app/src/host/host_ps.h holds only declarations, so there is nothing in it to model.

## Findings

| source | as written | input that shows it | evidently intended | confidence | as-written member | corrected member |
|---|---|---|---|---|---|---|
| clink/dll/dll.c:202-203 | `wcsncat` may append `max_size - wcslen(buffer)` characters, which counts the terminator's slot as free | `buffer_size` 3 holding "a": CR and LF go to indices 1 and 2, and the NUL to index 3, one past the buffer (any line of length `max_size - 2` or more) | a bound of `max_size - wcslen(buffer) - 1`, which leaves the same string and stays in bounds | high; not executed | `Crlf.AppendCrlfAsWritten` | `Crlf.AppendCrlf` |
| clink/dll/dll.c:286-301 | each slot is allocated `g_write_cache_size + 1` bytes, but the copy counts `wchar_t` characters | a write of 0x8000 characters copies 0x10000 bytes plus a 2-byte NUL into a 0x10000-byte allocation | `(g_write_cache_size + 1) * sizeof(wchar_t)` bytes per slot | medium; not executed | `WriteCache.SlotOverrunAsWritten` | `WriteCache.CopyFitsSlot` |

=== FILE: append_crlf.dfy ===
/** `append_crlf`: cmd.exe treats a line without a trailing CR LF as the
    start of a multi-line command, so every edited line gets one, bounded
    by the caller's buffer size. */
module Crlf {
  import opened Wrappers
  import opened WideString

  /** What a `wcsncat` of CR LF leaves behind: the caller's buffer, and
      whether a store landed at or beyond its end. */
  datatype Appended = Appended(buffer: seq<WChar>, overran: bool)

  /** `wcsncat(buffer, L"\r\n", n)` on a buffer of `|b|` cells: at most `n`
      characters of CR LF, then a NUL, are stored from the old terminator
      on; the stores that fall at `|b|` or beyond miss the buffer. */
  function CatCrlf(b: seq<WChar>, n: nat): (r: Appended)
    requires NUL in b
    ensures |r.buffer| == |b|
    ensures r.overran <==> WcsLen(b) + Min(n, 2) >= |b|
  {
    var len := WcsLen(b);
    var stores := CRLF[..Min(n, 2)] + [NUL];
    var inside := Min(|stores|, |b| - len);
    Appended(b[..len] + stores[..inside] + b[len + inside..], inside < |stores|)
  }

  /** When every store lands inside the buffer, `CatCrlf` is the bounded
      `wcsncat` of the wide-string model. */
  lemma CatCrlfInBounds(b: seq<WChar>, n: nat)
    requires NUL in b && !CatCrlf(b, n).overran
    ensures WcsNCat(b, CRLF, n) == Some(CatCrlf(b, n).buffer)
  {
    var len, k := WcsLen(b), Min(n, 2);
    assert |CRLF| == 2;
    assert CatCrlf(b, n).buffer == b[..len] + CRLF[..k] + [NUL] + b[len + k + 1..];
    WcsNCatLayout(b, CRLF, n);
  }

  /** `append_crlf` as written: the bound handed to `wcsncat` is
      `max_size - wcslen(buffer)`, which counts the terminator's slot as
      free; the last slot is then forced to NUL. */
  function AppendCrlfAsWritten(b: seq<WChar>, maxSize: nat): (r: Appended)
    requires Terminated(b, maxSize)
    ensures |r.buffer| == maxSize && r.buffer[maxSize - 1] == NUL
    ensures r.overran <==> WcsLen(b) >= maxSize - 2
  {
    var c := CatCrlf(b, maxSize - WcsLen(b));
    Appended(c.buffer[maxSize - 1 := NUL], c.overran)
  }

  /** A concrete input that drives the as-written `wcsncat` past the end: a
      three-character buffer holding "a" gets CR and LF at indices 1 and 2
      and its terminator at index 3. */
  lemma AppendCrlfOverrunWitness()
    ensures AppendCrlfAsWritten([0x61, NUL, NUL], 3).overran
  {
    assert WcsLen([0x61, NUL, NUL]) == 1 by {
      WcsLenOfPrefix([0x61, NUL, NUL], [0x61]);
    }
  }

  /** Cutting a line plus CR LF to `m` characters, when the line itself
      fits, keeps the line and as much of CR LF as fits. */
  lemma CrlfCut(s: seq<WChar>, m: int)
    requires |s| <= m
    ensures (s + CRLF)[..Min(|s| + 2, m)] == s + CRLF[..Min(m - |s|, 2)]
  {
  }

  /** `append_crlf` with the bound `max_size - wcslen(buffer) - 1`: the
      buffer keeps its size, the old string survives as a prefix, CR LF
      follows as far as room allows, and the last slot is a NUL. */
  function AppendCrlf(b: seq<WChar>, maxSize: nat): (r: seq<WChar>)
    requires Terminated(b, maxSize)
    ensures Terminated(r, maxSize) && r[maxSize - 1] == NUL
    ensures CStr(r) == (CStr(b) + CRLF)[..Min(|CStr(b)| + 2, maxSize - 1)]
  {
    var line := CStr(b);
    var n := maxSize - |line| - 1;
    var c := CatCrlf(b, n).buffer;
    assert NUL in c && CStr(c) == line + CRLF[..Min(n, 2)] by {
      CatCrlfInBounds(b, n);
    }
    assert WcsLen(c) <= maxSize - 1 < |c|;
    NulAfterTerminator(c, maxSize - 1);
    var r := c[maxSize - 1 := NUL];
    assert r[maxSize - 1] == NUL;
    assert CStr(r) == line + CRLF[..Min(n, 2)];
    CrlfCut(line, maxSize - 1);
    r
  }

  /** One more unit of bound changes only what lands in the last slot of
      the buffer, or beyond it. */
  lemma CatCrlfLastSlot(b: seq<WChar>, maxSize: nat)
    requires Terminated(b, maxSize)
    ensures var len := WcsLen(b);
            CatCrlf(b, maxSize - len).buffer[maxSize - 1 := NUL]
              == CatCrlf(b, maxSize - len - 1).buffer[maxSize - 1 := NUL]
  {
    var len := WcsLen(b);
    var wide := CatCrlf(b, maxSize - len).buffer;
    var tight := CatCrlf(b, maxSize - len - 1).buffer;
    if len + 2 < maxSize {
      assert wide == tight;
    } else if len + 2 == maxSize {
      assert wide == b[..len] + [CR, LF];
      assert tight == b[..len] + [CR, NUL];
    } else {
      assert wide == b[..len] + [CR];
      assert tight == b[..len] + [NUL];
    }
  }

  /** Inside the buffer the as-written version leaves exactly what the
      corrected one does, overrun or not: the final `buffer[max_size - 1] =
      0` overwrites whatever the longer copy put in the last slot. */
  lemma AppendCrlfAgrees(b: seq<WChar>, maxSize: nat)
    requires Terminated(b, maxSize)
    ensures AppendCrlfAsWritten(b, maxSize).buffer == AppendCrlf(b, maxSize)
  {
    CatCrlfLastSlot(b, maxSize);
  }

  /** What a caller of the as-written append gets in its buffer: a
      terminated string of at most `max_size - 1` characters that is the
      old string followed by as much of CR LF as fits. */
  lemma AppendCrlfAsWrittenLine(b: seq<WChar>, maxSize: nat)
    requires Terminated(b, maxSize)
    ensures var r := AppendCrlfAsWritten(b, maxSize).buffer;
            && Terminated(r, maxSize) && r[maxSize - 1] == NUL
            && CStr(r) == (CStr(b) + CRLF)[..Min(|CStr(b)| + 2, maxSize - 1)]
  {
    AppendCrlfAgrees(b, maxSize);
  }

  /** A line that leaves room for CR LF and a NUL ends with CR LF; any
      other line is cut so that it fills the buffer up to its last slot. */
  lemma AppendCrlfTerminates(b: seq<WChar>, maxSize: nat)
    requires Terminated(b, maxSize)
    ensures var s := CStr(AppendCrlf(b, maxSize));
            if WcsLen(b) + 2 < maxSize then s == CStr(b) + CRLF && s[|s| - 2..] == CRLF
            else |s| == maxSize - 1 && s <= CStr(b) + CRLF
  {
  }
}

=== FILE: hook_state.dfy ===
/** The process-wide state the interception layer keeps between hook
    calls, the events those calls send to the outside world, and the shape
    of a hook step. */
module HookState {
  import opened Wrappers
  import opened WideString

  /** `g_write_cache_size`: characters one cache slot keeps. */
  const WriteCacheSize: nat := 0xffff

  /** One `write_cache_t`. `Cached(t)` is an allocated buffer whose first
      `size` characters are `t`; the pointer is never released, so
      invalidation leaves `Cached([])`. */
  datatype Slot = Unallocated | Cached(text: seq<WChar>)

  /** The shell adapters `on_dll_attach` can bind. */
  datatype Shell = Cmd | Generic

  /** The process's top-level exception filter. */
  datatype Filter = HostFilter(id: nat) | CrashGuard

  /** What the hooks do to the world outside their own state. */
  datatype Event =
    | ConsoleWrite(text: seq<WChar>)        // WriteConsoleW on the real console
    | ConsoleRead                           // ReadConsoleW delegated to
    | ConsoleReadInput                      // ReadConsoleInputA delegated to
    | SetFilter(filter: Filter)             // SetUnhandledExceptionFilter
    | Readline(prompt: Option<seq<WChar>>)  // call_readline_w
    | Doskey(line: seq<WChar>)              // emulate_doskey, with the buffer it is given
    | WritePastEnd(index: nat)              // a store at buffer[index], outside the caller's buffer
    | ConfigDirOverride(path: string)       // set_config_dir_override
    | PrepareEnv                            // prepare_env_for_inputrc
    | Validate(shell: Shell)
    | Initialise(shell: Shell)
    | Shutdown(shell: Shell)
    | SaveHistory
    | ShutdownLua
    | ShutdownSettings
    | Banner                                // success() when not quiet
    | LoadFailed                            // failed()

  /** `g_write_cache_index`, `g_write_cache`, the auto-answer
      `visit_count`, `g_shell`, the installed exception filter and
      `rl_readline_name`. */
  datatype State = State(
    index: int,
    slots: seq<Slot>,
    visits: int,
    shell: Option<Shell>,
    filter: Filter,
    readlineName: string)

  /** A hook call: the state after it, what it did outside, what it returned. */
  datatype Step<R> = Step(state: State, events: seq<Event>, result: R)

  predicate IsEmpty(slot: Slot)
  {
    slot.Unallocated? || slot.text == []
  }

  /** The slot holding the most recent write: `(g_write_cache_index + 1) & 1`. */
  function PromptIndex(s: State): int
  {
    (s.index + 1) % 2
  }

  /** What holds between hook calls: the index names one of the two
      slots, slots respect their capacity, the slot about to be filled has
      nothing pending (so at most one write awaits its flush), and the
      auto-answer counter sits between visits. */
  predicate Valid(s: State)
  {
    && 0 <= s.index < 2
    && |s.slots| == 2
    && (forall k | 0 <= k < 2 :: s.slots[k].Cached? ==> |s.slots[k].text| <= WriteCacheSize)
    && IsEmpty(s.slots[s.index])
    && 0 <= s.visits < 2
  }

  /** `t` differs from `s` at most in the prompt slot's contents. */
  predicate OnlyPromptChanged(s: State, t: State)
    requires Valid(s)
  {
    && t.index == s.index && |t.slots| == 2 && t.slots[s.index] == s.slots[s.index]
    && t.visits == s.visits && t.shell == s.shell && t.filter == s.filter
    && t.readlineName == s.readlineName
  }

  /** The state at load: both buffers NULL, the write index and the visit
      counter at zero, no shell bound, the host's filter in place and the
      default readline name; the first read therefore sees a NULL prompt. */
  function Initial(hostFilter: Filter, defaultName: string): (s: State)
    ensures Valid(s) && PromptIndex(s) == 1
    ensures s.index == 0 && s.slots == [Unallocated, Unallocated] && s.visits == 0
    ensures s.shell.None? && s.filter == hostFilter && s.readlineName == defaultName
    ensures PromptText(s.slots[PromptIndex(s)]).None?
  {
    State(0, [Unallocated, Unallocated], 0, None, hostFilter, defaultName)
  }

  /** The pointer `check_auto_answer` and `call_readline_w` receive: NULL
      for a slot never written, else the string the slot's buffer holds
      (the cached text up to its first NUL). */
  function PromptText(slot: Slot): (p: Option<seq<WChar>>)
    ensures slot.Unallocated? <==> p.None?
    ensures slot.Cached? && NulFree(slot.text) ==> p == Some(slot.text)
    ensures IsEmpty(slot) && slot.Cached? ==> p == Some([])
    ensures slot.Cached? ==>
              && p.Some? && NulFree(p.value) && p.value <= slot.text
              && (p.value == slot.text || slot.text[|p.value|] == NUL)
  {
    match slot
    case Unallocated => None
    case Cached(t) =>
      var c := CStr(t + [NUL]);
      WcsLenOfPrefix(t + [NUL], c);
      assert c <= t && (c == t || t[|c|] == NUL) by {
        assert forall j | 0 <= j <= |c| :: (c + [NUL])[j] == (t + [NUL])[j];
        if |c| < |t| {
          assert (t + [NUL])[|c|] == t[|c|];
        }
      }
      assert NulFree(t) ==> CStr(t + [NUL]) == t by {
        if NulFree(t) { WcsLenOfPrefix(t + [NUL], t); }
      }
      Some(CStr(t + [NUL]))
  }

  /** The console writes a flush of `slot` issues: one call for an
      allocated buffer (possibly of length zero), none for a NULL one. */
  function Flush(slot: Slot): (e: seq<Event>)
    ensures |e| <= 1 && (e != [] <==> slot.Cached?)
    ensures forall k | 0 <= k < |e| :: e[k].ConsoleWrite?
    ensures Output(e) == if slot.Cached? then slot.text else []
  {
    match slot
    case Unallocated => []
    case Cached(t) => [ConsoleWrite(t)]
  }

  /** The text the events put on the real console, in order. */
  function Output(events: seq<Event>): seq<WChar>
  {
    if events == [] then []
    else (if events[0].ConsoleWrite? then events[0].text else []) + Output(events[1..])
  }

  /** Events with no console write put nothing on the console. */
  lemma {:induction false} OutputSilent(events: seq<Event>)
    requires forall k | 0 <= k < |events| :: !events[k].ConsoleWrite?
    ensures Output(events) == []
  {
    if events != [] {
      OutputSilent(events[1..]);
    }
  }
}

=== FILE: lifecycle.dfy ===
/** Load and unload: `on_dll_attach` picks a shell adapter for the host
    executable and runs its validate/initialise lifecycle; `on_dll_detach`
    tears down whatever was bound. */
module Lifecycle {
  import opened Wrappers
  import opened HookState

  /** `inject_args_t` as the injector publishes it; `profilePath` is the
      string held in its fixed-size field. */
  datatype InjectArgs = InjectArgs(profilePath: string, quiet: bool, noHostCheck: bool)

  /** What attach learns from outside: the published arguments, the
      module path `GetModuleFileName` reports (None when it fails), and
      how the bound adapter's `validate` and `initialise` turn out. */
  datatype AttachEnv = AttachEnv(
    args: InjectArgs,
    modulePath: Option<string>,
    validate: Shell -> bool,
    initialise: Shell -> bool)

  /** Size of the `exe_name` buffer. */
  const ExeNameCapacity: nat := 64

  /** The text after the last backslash (`strrchr(buffer, '\\') + 1`), or
      the whole path when it has none. */
  function BaseName(path: string): (name: string)
    ensures '\\' !in name
    ensures |name| <= |path| && name == path[|path| - |name|..]
    ensures |name| == |path| || path[|path| - |name| - 1] == '\\'
  {
    if path == [] then []
    else if path[|path| - 1] == '\\' then []
    else
      var init := path[..|path| - 1];
      var name := BaseName(init);
      var k := |init| - |name|;
      assert path == init + [path[|path| - 1]];
      assert path[k..] == init[k..] + [path[|path| - 1]];
      name + [path[|path| - 1]]
  }

  /** The name `set_rl_readline_name` stores: the base name, copied into
      `exe_name` by `str_cpy`, which keeps at most 63 characters and a NUL. */
  function ExeName(path: string): (name: string)
    ensures name <= BaseName(path) && |name| < ExeNameCapacity
    ensures |BaseName(path)| < ExeNameCapacity ==> name == BaseName(path)
  {
    var base := BaseName(path);
    base[..Min(|base|, ExeNameCapacity - 1)]
  }

  /** ASCII case folding, as `stricmp` applies it. */
  function Lower(c: char): char
  {
    if 'A' <= c <= 'Z' then (c as int + ('a' as int - 'A' as int)) as char else c
  }

  /** `stricmp(a, b) == 0`. */
  predicate EqualsIgnoreCase(a: string, b: string)
  {
    |a| == |b| && forall k | 0 <= k < |a| :: Lower(a[k]) == Lower(b[k])
  }

  /** The supported-shell table of `on_dll_attach`. */
  const SupportedShells: seq<(string, Shell)> := [("cmd.exe", Cmd)]

  /** The table search: the adapter of the first entry whose name matches,
      if any does. */
  function FindShell(name: string, table: seq<(string, Shell)>): (r: Option<Shell>)
    ensures r.None? <==> forall k | 0 <= k < |table| :: !EqualsIgnoreCase(name, table[k].0)
    ensures r.Some? ==> exists k | 0 <= k < |table| ::
              && EqualsIgnoreCase(name, table[k].0) && r.value == table[k].1
              && forall j | 0 <= j < k :: !EqualsIgnoreCase(name, table[j].0)
  {
    if table == [] then None
    else if EqualsIgnoreCase(name, table[0].0) then Some(table[0].1)
    else
      var r := FindShell(name, table[1..]);
      assert forall k | 1 <= k < |table| :: table[k] == table[1..][k - 1];
      r
  }

  /** Any spelling of "cmd.exe" selects the cmd adapter; nothing else
      selects any adapter. */
  lemma HostMatch(name: string)
    ensures FindShell(name, SupportedShells) == if EqualsIgnoreCase(name, "cmd.exe") then Some(Cmd) else None
  {
  }

  /** The calls a shell adapter receives, in order. */
  function ShellCalls(events: seq<Event>): seq<Event>
  {
    if events == [] then []
    else
      var rest := ShellCalls(events[1..]);
      if events[0].Validate? || events[0].Initialise? || events[0].Shutdown? then [events[0]] + rest else rest
  }

  lemma {:induction false} NoShellCalls(events: seq<Event>)
    requires forall k | 0 <= k < |events| :: !(events[k].Validate? || events[k].Initialise? || events[k].Shutdown?)
    ensures ShellCalls(events) == []
  {
    if events != [] {
      NoShellCalls(events[1..]);
    }
  }

  lemma {:induction false} ShellCallsAppend(a: seq<Event>, b: seq<Event>)
    ensures ShellCalls(a + b) == ShellCalls(a) + ShellCalls(b)
  {
    if a == [] {
      assert a + b == b;
    } else {
      assert (a + b)[1..] == a[1..] + b;
      ShellCallsAppend(a[1..], b);
    }
  }

  /** The adapter's part of attach once `sh` is bound: validate, then
      initialise only if validation passed, then the banner (unless quiet)
      or the failure message. */
  function Negotiate(sh: Shell, env: AttachEnv): (r: (seq<Event>, bool))
    ensures r.1 <==> env.validate(sh) && env.initialise(sh)
    ensures ShellCalls(r.0) == [Validate(sh)] + (if env.validate(sh) then [Initialise(sh)] else [])
    ensures Banner in r.0 <==> r.1 && !env.args.quiet
    ensures LoadFailed in r.0 <==> env.validate(sh) && !env.initialise(sh)
    ensures forall e | e in r.0 :: e.Validate? || e.Initialise? || e.Banner? || e.LoadFailed?
  {
    var tail := if !env.validate(sh) then [] else if !env.initialise(sh) then [LoadFailed]
                else if env.args.quiet then [] else [Banner];
    var calls := [Validate(sh)] + (if env.validate(sh) then [Initialise(sh)] else []);
    NoShellCalls(tail);
    assert ShellCalls(calls) == calls by {
      if env.validate(sh) {
        ShellCallsAppend([Validate(sh)], [Initialise(sh)]);
      }
    }
    ShellCallsAppend(calls, tail);
    (calls + tail, env.validate(sh) && env.initialise(sh))
  }

  /** The adapter `g_shell` holds after the table search and the
      fallback: a table match wins, else whatever was bound before, else
      the generic adapter when host checks are off. */
  function SelectShell(name: string, prior: Option<Shell>, noHostCheck: bool): (r: Option<Shell>)
    ensures FindShell(name, SupportedShells).Some? ==> r == FindShell(name, SupportedShells)
    ensures FindShell(name, SupportedShells).None? && prior.None? ==>
              r == if noHostCheck then Some(Generic) else None
    ensures FindShell(name, SupportedShells).None? && prior.Some? ==> r == prior
    ensures prior.Some? ==> r.Some?
  {
    var found := FindShell(name, SupportedShells);
    if found.Some? then found
    else if prior.Some? then prior
    else if noHostCheck then Some(Generic)
    else None
  }

  /** `rl_readline_name` after `set_rl_readline_name`: the executable's
      name, or the name it had when the module path is unavailable. */
  function HostName(s: State, env: AttachEnv): (name: string)
    ensures env.modulePath.None? ==> name == s.readlineName
    ensures env.modulePath.Some? ==>
              var base := BaseName(env.modulePath.value);
              && '\\' !in name && name <= base
              && |name| == Min(|base|, ExeNameCapacity - 1)
  {
    if env.modulePath.Some? then ExeName(env.modulePath.value) else s.readlineName
  }

  /** What attach does before looking for a shell: the profile override,
      when one was given, then the readline environment. */
  function Preamble(args: InjectArgs): (e: seq<Event>)
    ensures ShellCalls(e) == [] && Banner !in e && LoadFailed !in e
    ensures ConfigDirOverride(args.profilePath) in e <==> args.profilePath != []
    ensures e != [] && e[|e| - 1] == PrepareEnv
  {
    var e := (if args.profilePath != [] then [ConfigDirOverride(args.profilePath)] else []) + [PrepareEnv];
    NoShellCalls(e);
    e
  }

  /** `on_dll_attach`: publishes the profile override when one was
      given, names the host, binds an adapter, and runs the adapter's
      lifecycle. Only the binding and the host name change. */
  function Attach(s: State, env: AttachEnv): (r: Step<bool>)
    ensures r.state.index == s.index && r.state.slots == s.slots
    ensures r.state.visits == s.visits && r.state.filter == s.filter
    ensures r.state.readlineName == HostName(s, env)
    ensures r.state.shell == SelectShell(r.state.readlineName, s.shell, env.args.noHostCheck)
    ensures r.state.shell.None? ==> !r.result && ShellCalls(r.events) == []
    ensures r.state.shell.Some? ==>
              var sh := r.state.shell.value;
              && (r.result <==> env.validate(sh) && env.initialise(sh))
              && ShellCalls(r.events) == [Validate(sh)] + (if env.validate(sh) then [Initialise(sh)] else [])
              && (Banner in r.events <==> r.result && !env.args.quiet)
              && (LoadFailed in r.events <==> env.validate(sh) && !env.initialise(sh))
    ensures ConfigDirOverride(env.args.profilePath) in r.events <==> env.args.profilePath != []
    ensures Preamble(env.args) <= r.events
  {
    var preamble := Preamble(env.args);
    var name := HostName(s, env);
    var bound := SelectShell(name, s.shell, env.args.noHostCheck);
    if bound.None? then
      Step(s.(readlineName := name, shell := None), preamble, false)
    else
      var n := Negotiate(bound.value, env);
      ShellCallsAppend(preamble, n.0);
      assert ConfigDirOverride(env.args.profilePath) !in n.0;
      assert Banner in preamble + n.0 <==> Banner in n.0;
      assert LoadFailed in preamble + n.0 <==> LoadFailed in n.0;
      Step(s.(readlineName := name, shell := bound), preamble + n.0, n.1)
  }

  /** From a fresh load: any spelling of "cmd.exe" binds the cmd adapter;
      any other host is refused without a single adapter call unless host
      checks are off, in which case the generic adapter is validated and,
      if that passes, initialised. */
  lemma AttachSelectsShell(s: State, env: AttachEnv)
    requires s.shell.None? && env.modulePath.Some?
    ensures var a := Attach(s, env);
            var name := ExeName(env.modulePath.value);
            && (EqualsIgnoreCase(name, "cmd.exe") ==> a.state.shell == Some(Cmd))
            && (!EqualsIgnoreCase(name, "cmd.exe") && !env.args.noHostCheck ==>
                  !a.result && a.state.shell.None? && ShellCalls(a.events) == [])
            && (!EqualsIgnoreCase(name, "cmd.exe") && env.args.noHostCheck ==>
                  && a.state.shell == Some(Generic)
                  && ShellCalls(a.events) == [Validate(Generic)] + (if env.validate(Generic) then [Initialise(Generic)] else []))
  {
    HostMatch(ExeName(env.modulePath.value));
  }

  /** `on_dll_detach`: always succeeds; when a shell is bound it is shut
      down, then history is saved, then Lua and then the settings are
      torn down. */
  function Detach(s: State): (r: Step<bool>)
    ensures r.result && r.state == s
    ensures r.events != [] <==> s.shell.Some?
    ensures s.shell.Some? ==> r.events == [Shutdown(s.shell.value), SaveHistory, ShutdownLua, ShutdownSettings]
  {
    if s.shell.Some? then Step(s, [Shutdown(s.shell.value), SaveHistory, ShutdownLua, ShutdownSettings], true)
    else Step(s, [], true)
  }

  /** From a fresh load, teardown happens exactly when attach got as far
      as calling an adapter's `validate`, whether or not attach then
      succeeded: a failed validation or initialisation leaves the adapter
      bound. */
  lemma TeardownFollowsValidate(s: State, env: AttachEnv)
    requires s.shell.None?
    ensures var a := Attach(s, env);
            Detach(a.state).events != [] <==> exists sh :: Validate(sh) in a.events
  {
  }
}

=== FILE: read_hooks.dfy ===
/** The read side: `hooked_read_console` and its single-character
    auto-answer path, and `hooked_read_console_input`. The prompt the
    host just wrote is still held in the prompt slot; the read paths
    either consume it (hand it to the line editor, answer it) or flush it
    before falling back to the real console. */
module ReadHooks {
  import opened Wrappers
  import opened WideString
  import opened Crlf
  import opened HookState
  import opened WriteCache

  /** What `call_readline_w` leaves behind: its EOF flag and the caller's
      buffer as filled by the editor. */
  datatype LineEdit = LineEdit(eof: bool, buffer: seq<WChar>)

  /** The collaborators a read consults. Each is a total function of
      what it is handed. */
  datatype Host = Host(
    autoAnswer: Option<seq<WChar>> -> int,              // check_auto_answer
    readline: (Option<seq<WChar>>, nat) -> LineEdit,    // call_readline_w
    ctrldExits: bool,                                   // get_clink_setting_int("ctrld_exits") != 0
    doskey: (seq<WChar>, nat) -> seq<WChar>)            // emulate_doskey

  /** A console read's outcome: the BOOL, the caller's buffer, `*read_in`. */
  datatype ReadReply = ReadReply(ok: bool, buffer: seq<WChar>, count: nat)

  /** What the full-line path needs of its collaborators for a buffer of
      `size` characters: the editor leaves a terminated string, a
      substituted "exit" has room for its terminator, and macro expansion
      keeps the buffer a terminated string. No buffer of size 0 qualifies,
      which rules out the `buffer[max_size - 1]` underflow. */
  ghost predicate LineReadable(h: Host, prompt: Option<seq<WChar>>, size: nat)
  {
    && Terminated(h.readline(prompt, size).buffer, size)
    && (h.readline(prompt, size).eof && h.ctrldExits ==> size >= 5)
    && (forall b {:trigger h.doskey(b, size)} | Terminated(b, size) :: Terminated(h.doskey(b, size), size))
  }

  /** The buffer after the editor and the EOF substitution. */
  function EditedLine(h: Host, prompt: Option<seq<WChar>>, size: nat): (line: seq<WChar>)
    requires LineReadable(h, prompt, size)
    ensures Terminated(line, size)
    ensures h.readline(prompt, size).eof && h.ctrldExits ==> CStr(line) == Exit
    ensures !(h.readline(prompt, size).eof && h.ctrldExits) ==> line == h.readline(prompt, size).buffer
  {
    var e := h.readline(prompt, size);
    if e.eof && h.ctrldExits then WcsNCpy(Exit, size) else e.buffer
  }

  /** `hooked_read_console_input`: flushes the pending prompt, then hands
      the call to the real `ReadConsoleInputA`, whose reply it returns. */
  function ReadConsoleInput<R>(s: State, fallback: R): (r: Step<R>)
    requires Valid(s)
    ensures Valid(r.state) && r.result == fallback
    ensures r.events == Flush(s.slots[PromptIndex(s)]) + [ConsoleReadInput]
    ensures IsEmpty(r.state.slots[PromptIndex(s)])
    ensures r.state.slots[PromptIndex(s)].Cached? <==> s.slots[PromptIndex(s)].Cached?
    ensures OnlyPromptChanged(s, r.state)
  {
    var i := PromptIndex(s);
    var d := Dispatch(s, i);
    Step(d.state, d.events + [ConsoleReadInput], fallback)
  }

  /** `handle_single_byte_read`. When the classifier recognises the
      pending prompt, the first visit answers with its reply and keeps the
      prompt; the second answers '\n', empties the prompt and resets the
      count; neither touches the console. Otherwise the prompt is flushed
      and the real `ReadConsoleW` answers, with the count untouched. */
  function SingleByteRead(s: State, h: Host, fallback: ReadReply): (r: Step<ReadReply>)
    requires Valid(s)
    ensures Valid(r.state)
    ensures r.state.index == s.index && r.state.slots[s.index] == s.slots[s.index]
    ensures r.state.shell == s.shell && r.state.filter == s.filter && r.state.readlineName == s.readlineName
    ensures r.state.slots[PromptIndex(s)].Cached? <==> s.slots[PromptIndex(s)].Cached?
    ensures var p := s.slots[PromptIndex(s)];
            var reply := h.autoAnswer(PromptText(p));
            && (reply != 0 && s.visits == 0 ==>
                  && r.result == ReadReply(true, [ToWChar(reply)], 1)
                  && r.state.visits == 1 && r.state.slots == s.slots && r.events == [])
            && (reply != 0 && s.visits == 1 ==>
                  && r.result == ReadReply(true, [LF], 1)
                  && r.state.visits == 0 && IsEmpty(r.state.slots[PromptIndex(s)]) && r.events == [])
            && (reply == 0 ==>
                  && r.result == fallback && r.state.visits == s.visits
                  && IsEmpty(r.state.slots[PromptIndex(s)])
                  && r.events == Flush(p) + [ConsoleRead])
  {
    var i := PromptIndex(s);
    var reply := h.autoAnswer(PromptText(s.slots[i]));
    if reply != 0 then
      var visits := s.visits + 1;
      if visits >= 2 then Step(Invalidate(s, i).(visits := 0), [], ReadReply(true, [LF], 1))
      else Step(s.(visits := visits), [], ReadReply(true, [ToWChar(reply)], 1))
    else
      var d := Dispatch(s, i);
      Step(d.state, d.events + [ConsoleRead], fallback)
  }

  /** The full-line path of `hooked_read_console`: hands the pending
      prompt to the editor with the crash guard installed, substitutes
      "exit" on EOF when the setting asks for it, empties the prompt slot,
      runs macro expansion, appends CR LF within the buffer, puts the
      previous exception filter back, and reports the length of the
      resulting string. A line too long for CR LF and a NUL makes
      `append_crlf` store one cell past the buffer before it truncates. */
  function ReadLine(s: State, h: Host, size: nat): (r: Step<ReadReply>)
    requires Valid(s)
    requires LineReadable(h, PromptText(s.slots[PromptIndex(s)]), size)
    ensures Valid(r.state)
    ensures var prompt := PromptText(s.slots[PromptIndex(s)]);
            var line := EditedLine(h, prompt, size);
            var expanded := CStr(h.doskey(line, size));
            var overrun := if |expanded| >= size - 2 then [WritePastEnd(size)] else [];
            && r.events == [SetFilter(CrashGuard), Readline(prompt), Doskey(line)] + overrun + [SetFilter(s.filter)]
            && r.result.ok && Terminated(r.result.buffer, size) && r.result.buffer[size - 1] == NUL
            && r.result.count == |CStr(r.result.buffer)|
            && CStr(r.result.buffer) == (expanded + CRLF)[..Min(|expanded| + 2, size - 1)]
    ensures IsEmpty(r.state.slots[PromptIndex(s)]) && OnlyPromptChanged(s, r.state)
    ensures r.state.slots[PromptIndex(s)].Cached? <==> s.slots[PromptIndex(s)].Cached?
  {
    var i := PromptIndex(s);
    var prompt := PromptText(s.slots[i]);
    var line := EditedLine(h, prompt, size);
    var s1 := Invalidate(s, i);
    var expanded := h.doskey(line, size);
    var appended := AppendCrlfAsWritten(expanded, size);
    AppendCrlfAsWrittenLine(expanded, size);
    var overrun := if appended.overran then [WritePastEnd(size)] else [];
    Step(s1, [SetFilter(CrashGuard), Readline(prompt), Doskey(line)] + overrun + [SetFilter(s.filter)],
         ReadReply(true, appended.buffer, WcsLen(appended.buffer)))
  }

  /** `hooked_read_console`: a one-character request goes to the
      single-character path and nowhere else; any other request is a
      full-line read. */
  function ReadConsole(s: State, h: Host, size: nat, fallback: ReadReply): (r: Step<ReadReply>)
    requires Valid(s)
    requires size != 1 ==> LineReadable(h, PromptText(s.slots[PromptIndex(s)]), size)
    ensures Valid(r.state)
    ensures size == 1 ==> r == SingleByteRead(s, h, fallback)
    ensures size != 1 ==> r == ReadLine(s, h, size)
  {
    if size == 1 then SingleByteRead(s, h, fallback) else ReadLine(s, h, size)
  }

  /** The crash guard is scoped to the call: it is installed before the
      editor runs and the filter in place before the call is back in place
      after it, as the last thing the call does to the outside. */
  lemma CrashGuardScoped(s: State, h: Host, size: nat, fallback: ReadReply)
    requires Valid(s) && size != 1
    requires LineReadable(h, PromptText(s.slots[PromptIndex(s)]), size)
    ensures var r := ReadConsole(s, h, size, fallback);
            && r.state.filter == s.filter
            && r.events[0] == SetFilter(CrashGuard) && r.events[1].Readline?
            && r.events[|r.events| - 1] == SetFilter(s.filter)
  {
  }
}

=== FILE: sessions.dfy ===
/** Properties of hook calls in sequence, as the host drives them: a
    prompt written and then read, and a y/n prompt answered one
    character at a time. */
module Sessions {
  import opened Wrappers
  import opened WideString
  import opened Crlf
  import opened HookState
  import opened WriteCache
  import opened ReadHooks

  /** A prompt written and then followed by a line read is the prompt
      the line editor is given. */
  lemma PromptReachesEditor(s: State, t: seq<WChar>, h: Host, size: nat, fallback: ReadReply)
    requires Valid(s) && NulFree(t) && |t| <= WriteCacheSize && size != 1
    requires LineReadable(h, Some(t), size)
    ensures var w := WriteConsole(s, t, true);
            ReadConsole(w.state, h, size, fallback).events[1] == Readline(Some(t))
  {
  }

  /** A line read writes nothing to the console: together with the write
      path flushing only what was pending before it, a prompt that is
      followed by a line read is drawn by the editor alone. */
  lemma LineReadSilent(s: State, h: Host, size: nat, fallback: ReadReply)
    requires Valid(s) && size != 1
    requires LineReadable(h, PromptText(s.slots[PromptIndex(s)]), size)
    ensures Output(ReadConsole(s, h, size, fallback).events) == []
  {
    var e := ReadConsole(s, h, size, fallback).events;
    assert |e| <= 5 && e[0].SetFilter? && e[1].Readline? && e[2].Doskey? && e[|e| - 1].SetFilter?;
    assert |e| == 5 ==> e[3].WritePastEnd?;
    OutputSilent(e);
  }

  /** Once a line read has consumed the prompt, the next write flushes
      nothing: the prompt is drawn by the editor, not again by the host. */
  lemma ConsumedPromptNotRedrawn(s: State, h: Host, size: nat, fallback: ReadReply, next: seq<WChar>)
    requires Valid(s) && size != 1
    requires LineReadable(h, PromptText(s.slots[PromptIndex(s)]), size)
    ensures var r := ReadConsole(s, h, size, fallback);
            Output(WriteConsole(r.state, next, true).events) == []
  {
    var r := ReadConsole(s, h, size, fallback);
    assert PromptIndex(r.state) == PromptIndex(s);
    assert IsEmpty(r.state.slots[PromptIndex(r.state)]);
  }

  /** A line with room for CR LF and its terminator comes back as the
      expanded line followed by CR LF; a longer one comes back cut to fill
      the buffer but one slot, and only the longer one makes `append_crlf`
      store past the end of the buffer. */
  lemma ReadLineEndsWithCrlf(s: State, h: Host, size: nat, fallback: ReadReply)
    requires Valid(s) && size != 1
    requires LineReadable(h, PromptText(s.slots[PromptIndex(s)]), size)
    ensures var r := ReadConsole(s, h, size, fallback);
            var expanded := CStr(h.doskey(EditedLine(h, PromptText(s.slots[PromptIndex(s)]), size), size));
            && (|expanded| + 2 < size ==> CStr(r.result.buffer) == expanded + CRLF)
            && (|expanded| + 2 >= size ==> r.result.count == size - 1 && CStr(r.result.buffer) <= expanded + CRLF)
            && (WritePastEnd(size) in r.events <==> |expanded| + 2 >= size)
  {
  }

  /** cmd.exe's confirmation loop reads one character at a time until it
      sees '\n'. After a prompt the classifier recognises, the first read
      returns the classifier's reply and the second returns '\n', each
      with a count of 1 and without touching the console; the second
      empties the prompt and returns the counter to 0, so the next
      recognised prompt starts over at its first visit. */
  lemma AutoAnswerCadence(s: State, p: seq<WChar>, h: Host, fallback: ReadReply)
    requires Valid(s) && s.visits == 0 && NulFree(p) && |p| <= WriteCacheSize
    requires h.autoAnswer(Some(p)) != 0
    ensures var w := WriteConsole(s, p, true);
            var first := SingleByteRead(w.state, h, fallback);
            var second := SingleByteRead(first.state, h, fallback);
            && first.result == ReadReply(true, [ToWChar(h.autoAnswer(Some(p)))], 1)
            && first.state.slots[PromptIndex(first.state)] == Cached(p)
            && second.result == ReadReply(true, [LF], 1)
            && IsEmpty(second.state.slots[PromptIndex(second.state)])
            && second.state.visits == 0
            && first.events == [] && second.events == []
  {
  }

  /** The counter is reset only by the second auto-answer visit: a line
      read or a write that empties the prompt in between leaves it at 1,
      so the next recognised prompt is answered with '\n' at once. */
  lemma StaleVisitAnswersNewline(s: State, h: Host, size: nat, fallback: ReadReply, p: seq<WChar>)
    requires Valid(s) && s.visits == 1 && size != 1
    requires LineReadable(h, PromptText(s.slots[PromptIndex(s)]), size)
    requires NulFree(p) && |p| <= WriteCacheSize && h.autoAnswer(Some(p)) != 0
    ensures var line := ReadConsole(s, h, size, fallback);
            var w := WriteConsole(line.state, p, true);
            SingleByteRead(w.state, h, fallback).result == ReadReply(true, [LF], 1)
  {
  }
}

=== FILE: wide_string.dfy ===
/** Wide-character C strings as the console hooks see them: a buffer is a
    sequence of `wchar_t` code units, and the string it holds is everything
    before its first NUL. */
module WideString {
  import opened Wrappers

  /** One `wchar_t` on Windows: a 16-bit UTF-16 code unit. */
  newtype WChar = c: int | 0 <= c < 0x1_0000

  const NUL: WChar := 0
  const LF: WChar := 0x0a
  const CR: WChar := 0x0d

  /** `L"\x0d\x0a"` */
  const CRLF: seq<WChar> := [CR, LF]

  /** `L"exit"` */
  const Exit: seq<WChar> := [0x65, 0x78, 0x69, 0x74]

  /** Storing a C `int` into a `wchar_t` keeps its low 16 bits. */
  function ToWChar(x: int): (c: WChar)
    ensures 0 <= x < 0x1_0000 ==> c as int == x
    ensures (x - c as int) % 0x1_0000 == 0
  {
    (x % 0x1_0000) as WChar
  }

  /** A run of characters with no terminator inside it. */
  predicate NulFree(t: seq<WChar>)
  {
    NUL !in t
  }

  /** A caller-owned buffer of exactly `size` characters that holds a
      terminated string, i.e. one `wcslen` may be applied to. */
  predicate Terminated(b: seq<WChar>, size: nat)
  {
    |b| == size && NUL in b
  }

  /** `wcslen`: the position of the first NUL. */
  function WcsLen(b: seq<WChar>): (n: nat)
    requires NUL in b
    ensures n < |b| && b[n] == NUL
    ensures forall k | 0 <= k < n :: b[k] != NUL
  {
    if b[0] == NUL then 0
    else
      assert b == [b[0]] + b[1..];
      WcsLen(b[1..]) + 1
  }

  /** The string a buffer holds: a NUL-free prefix followed by a NUL. */
  function CStr(b: seq<WChar>): (s: seq<WChar>)
    requires NUL in b
    ensures NulFree(s) && s + [NUL] <= b
  {
    b[..WcsLen(b)]
  }

  /** The terminator position is determined by any NUL-free prefix that is
      followed by a NUL. */
  lemma {:induction false} WcsLenOfPrefix(b: seq<WChar>, s: seq<WChar>)
    requires NulFree(s) && s + [NUL] <= b
    ensures NUL in b && WcsLen(b) == |s| && CStr(b) == s
  {
    assert b[|s|] == (s + [NUL])[|s|];
    var n := WcsLen(b);
    if n < |s| {
      assert false;
    } else if n > |s| {
      assert false;
    }
    assert b[..n] == s;
  }

  /** `wcsncpy(dst, t, n)`: copies `t` and pads with NULs up to `n`
      characters; when `t` does not fit, no terminator is written. */
  function WcsNCpy(t: seq<WChar>, n: nat): (b: seq<WChar>)
    requires NulFree(t)
    ensures |b| == n
    ensures n > |t| ==> Terminated(b, n) && CStr(b) == t
    ensures n <= |t| ==> NulFree(b) && b == t[..n]
  {
    if n <= |t| then t[..n]
    else
      var b := t + seq(n - |t|, _ => NUL);
      WcsLenOfPrefix(b, t);
      b
  }

  /** `wcsncat(b, src, n)` within a buffer of |b| characters: at most `n`
      characters of `src` go after the string in `b`, then one NUL. The
      result is None when the last of those writes would land outside
      the buffer. */
  function WcsNCat(b: seq<WChar>, src: seq<WChar>, n: nat): (r: Option<seq<WChar>>)
    requires NUL in b && NulFree(src)
    ensures r.Some? <==> WcsLen(b) + Min(n, |src|) < |b|
    ensures r.Some? ==> |r.value| == |b| && NUL in r.value
    ensures r.Some? ==> CStr(r.value) == CStr(b) + src[..Min(n, |src|)]
    ensures r.Some? ==> r.value[|CStr(r.value)| + 1..] == b[|CStr(r.value)| + 1..]
  {
    var len := WcsLen(b);
    var k := Min(n, |src|);
    if len + k < |b| then
      var s := b[..len] + src[..k];
      var r := s + [NUL] + b[len + k + 1..];
      assert NulFree(s) by {
        assert forall j | 0 <= j < |s| :: s[j] == if j < len then b[..len][j] else src[j - len];
      }
      WcsLenOfPrefix(r, s);
      Some(r)
    else None
  }

  /** Forcing a NUL at or after the terminator leaves the string alone. */
  lemma NulAfterTerminator(b: seq<WChar>, i: nat)
    requires NUL in b && WcsLen(b) <= i < |b|
    ensures NUL in b[i := NUL] && CStr(b[i := NUL]) == CStr(b)
  {
    var s := CStr(b);
    assert s + [NUL] <= b[i := NUL] by {
      assert forall j | 0 <= j <= |s| :: b[i := NUL][j] == b[j];
    }
    WcsLenOfPrefix(b[i := NUL], s);
  }

  /** Where `wcsncat` puts things: the old string, the copied characters,
      the new terminator, then the old contents. */
  lemma WcsNCatLayout(b: seq<WChar>, src: seq<WChar>, n: nat)
    requires NUL in b && NulFree(src) && WcsNCat(b, src, n).Some?
    ensures var len, k := WcsLen(b), Min(n, |src|);
            WcsNCat(b, src, n).value == b[..len] + src[..k] + [NUL] + b[len + k + 1..]
  {
  }
}

=== FILE: wrappers.dfy ===
/** Small shared vocabulary: an optional value (a C pointer that may be NULL,
    a result that may be undefined) and integer minimum. */
module Wrappers {

  datatype Option<+T> = None | Some(value: T)

  function Min(a: int, b: int): int
  {
    if a < b then a else b
  }
}

=== FILE: write_cache.dfy ===
/** The double-buffered write path: `hooked_write_console` caches each
    write and puts the previous one on the console, so the latest write
    (usually the shell's prompt) is still held back when the next read
    arrives. */
module WriteCache {
  import opened Wrappers
  import opened WideString
  import opened HookState

  /** A slot's contents after `invalidate_cached_write`. */
  function Cleared(slot: Slot): (c: Slot)
    ensures IsEmpty(c) && (c.Cached? <==> slot.Cached?)
  {
    match slot
    case Unallocated => Unallocated
    case Cached(_) => Cached([])
  }

  /** `invalidate_cached_write(index)`: empties slot `index`; any index
      outside the pair is ignored. Nothing but that slot changes. */
  function Invalidate(s: State, index: int): (r: State)
    requires |s.slots| == 2
    ensures |r.slots| == 2
    ensures !(0 <= index < 2) ==> r == s
    ensures 0 <= index < 2 ==> IsEmpty(r.slots[index]) && (r.slots[index].Cached? <==> s.slots[index].Cached?)
    ensures 0 <= index < 2 ==> r.slots[1 - index] == s.slots[1 - index]
    ensures r.(slots := s.slots) == s
  {
    if 0 <= index < 2 then s.(slots := s.slots[index := Cleared(s.slots[index])]) else s
  }

  /** `dispatch_cached_write(output, index)`: writes slot `index` to the
      console when its buffer exists, then invalidates it. */
  function Dispatch(s: State, index: int): (r: Step<()>)
    requires |s.slots| == 2
    ensures r.state == Invalidate(s, index)
    ensures !(0 <= index < 2) ==> r.events == []
    ensures 0 <= index < 2 ==> r.events == Flush(s.slots[index])
    ensures 0 <= index < 2 && s.slots[index].Cached? ==> Output(r.events) == s.slots[index].text
  {
    if 0 <= index < 2 then Step(Invalidate(s, index), Flush(s.slots[index]), ())
    else Step(s, [], ())
  }

  /** A dispatched slot has nothing left to put on the console. */
  lemma DispatchOnce(s: State, index: int)
    requires |s.slots| == 2
    ensures Output(Dispatch(Dispatch(s, index).state, index).events) == []
  {
  }

  /** What `hooked_write_console` reports through `*written`, if given. */
  datatype WriteReply = WriteReply(ok: bool, written: Option<nat>)

  /** The part of a write a slot keeps. */
  function Fit(text: seq<WChar>): (t: seq<WChar>)
    ensures |t| == Min(|text|, WriteCacheSize) && t <= text
    ensures |text| <= WriteCacheSize ==> t == text
  {
    text[..Min(|text|, WriteCacheSize)]
  }

  /** Bytes one character of a slot occupies. */
  const WCharBytes: nat := 2

  /** Bytes a write of `n` characters touches in its slot: the copied
      characters plus the terminator. */
  function CopyBytes(n: nat): nat
  {
    (Min(n, WriteCacheSize) + 1) * WCharBytes
  }

  /** Bytes `VirtualAlloc` is asked for per slot, as written:
      `g_write_cache_size + 1`, a count of characters passed as bytes. */
  const AllocBytesAsWritten: nat := WriteCacheSize + 1

  /** Bytes a slot needs for `g_write_cache_size` characters and a NUL. */
  const SlotBytes: nat := (WriteCacheSize + 1) * WCharBytes

  /** As written, any write of 0x8000 characters or more copies past the
      end of the slot's allocation. */
  lemma SlotOverrunAsWritten(n: nat)
    ensures CopyBytes(n) > AllocBytesAsWritten <==> n >= 0x8000
  {
  }

  /** With the allocation sized in bytes every copy fits. */
  lemma CopyFitsSlot(n: nat)
    ensures CopyBytes(n) <= SlotBytes
    ensures n >= WriteCacheSize ==> CopyBytes(n) == SlotBytes
  {
  }

  /** `hooked_write_console`: the write lands in the slot at the old
      index, which becomes the prompt slot; the previous prompt slot is
      flushed to the console and left empty; the full requested length is
      reported whether or not the text was cut. */
  function WriteConsole(s: State, text: seq<WChar>, hasWritten: bool): (r: Step<WriteReply>)
    requires Valid(s)
    ensures Valid(r.state)
    ensures r.state.index == 1 - s.index && PromptIndex(r.state) == s.index
    ensures r.state.slots[PromptIndex(r.state)] == Cached(Fit(text))
    ensures IsEmpty(r.state.slots[r.state.index])
    ensures r.state.slots[r.state.index].Cached? <==> s.slots[PromptIndex(s)].Cached?
    ensures r.events == Flush(s.slots[PromptIndex(s)])
    ensures Output(r.events) == if s.slots[PromptIndex(s)].Cached? then s.slots[PromptIndex(s)].text else []
    ensures r.result.ok && r.result.written == if hasWritten then Some(|text|) else None
    ensures r.state.visits == s.visits && r.state.shell == s.shell && r.state.filter == s.filter
    ensures r.state.readlineName == s.readlineName
  {
    var i := s.index;
    var s1 := s.(index := (i + 1) % 2, slots := s.slots[i := Cached(Fit(text))]);
    var d := Dispatch(s1, s1.index);
    Step(d.state, d.events, WriteReply(true, if hasWritten then Some(|text|) else None))
  }

  /** The console writes issued for a run of writes, one per write. */
  function Echo(ws: seq<seq<WChar>>): (e: seq<Event>)
    ensures |e| == |ws|
    ensures forall k | 0 <= k < |ws| :: e[k] == ConsoleWrite(Fit(ws[k]))
  {
    if ws == [] then [] else [ConsoleWrite(Fit(ws[0]))] + Echo(ws[1..])
  }

  /** A run of consecutive `hooked_write_console` calls. */
  function RunWrites(s: State, ws: seq<seq<WChar>>): (r: Step<()>)
    requires Valid(s)
    ensures Valid(r.state)
    decreases |ws|
  {
    if ws == [] then Step(s, [], ())
    else
      var w := WriteConsole(s, ws[0], false);
      var rest := RunWrites(w.state, ws[1..]);
      Step(rest.state, w.events + rest.events, ())
  }

  /** Output runs one write behind: a run of writes first flushes whatever
      was pending, then puts every write but the last on the console, each
      once and in order, and leaves the last one cached as the prompt. */
  lemma {:induction false} WritesDeferOne(s: State, ws: seq<seq<WChar>>)
    requires Valid(s) && ws != []
    ensures RunWrites(s, ws).events == Flush(s.slots[PromptIndex(s)]) + Echo(ws[..|ws| - 1])
    ensures var t := RunWrites(s, ws).state; t.slots[PromptIndex(t)] == Cached(Fit(ws[|ws| - 1]))
    decreases |ws|
  {
    var w := WriteConsole(s, ws[0], false);
    if |ws| == 1 {
      assert ws[..0] == [];
    } else {
      WritesDeferOne(w.state, ws[1..]);
      assert ws[1..][..|ws| - 2] == ws[1..|ws| - 1];
      assert ws[..|ws| - 1][1..] == ws[1..|ws| - 1];
    }
  }
}
